=== FILE: README.md ===
# Content portal post store, in Dafny

This project models the post store of a small single-page content portal. The
portal has a public feed of posts organised by category. Readers can open a
post, which counts a view, comment on it and react to it with emoji. An admin
panel creates, edits, publishes and deletes posts.

The whole collection lives in one browser storage entry. Every mutation writes
the entire new collection back to that entry (`savePosts`).

Each operation is a pure function from a `seq<Post>` to a new `seq<Post>`. On
top of these, `App.Step` models the application's state and the user's actions.

Modules:

- `Types`: the records and enums of `types.ts` (`Post`, `Comment`, `Reactions`, `Category`, media type, status, view state) and `findIndex` on ids.
- `Text`: `trim`, using ECMAScript's whitespace set, and `includes`.
- `Seqs`: `Array.prototype.filter`, plus what it keeps, how many copies, and in what order.
- `Viewer`: the reader-side handlers of `App.tsx`: open, comment, react.
- `Feed`: the `filteredPosts` query, which filters by visibility, category and search, then sorts stably, newest first.
- `Admin`: `components/AdminPanel.tsx`. This covers the new-post template, the form inputs, the validated save (upsert) and delete.
- `App`: the application state, the seed collection, first-load initialisation, `savePosts`, and a transition function over user actions.

## How the model reads the code

- **Defaulted fields.** The collection is read back from storage without validation. The handlers write `p.views || 0`, `p.comments || []` and `p.reactions || {}`. So `views`, `comments` and `reactions` are `Option` fields of `Post`, read through `ViewCount`, `CommentList` and `ReactionMap`.
- **The post being edited.** This is `Partial<Post>`, modelled as `PartialPost`. Its status may be absent. A missing title or content is modelled as the empty string, because both are false to the `!editingPost.title` test.
- **No selection.** `!selectedPostId` holds both when nothing is selected and when the selected id is the empty string (`Viewer.HasSelection`).
- **Lower-casing.** `toLowerCase` is the parameter `lower`. The facts that need `lower("") == ""` require it explicitly.
- **Sort order.** `Array.prototype.sort` has been stable since ES2019. So the comparator `b.createdAt - a.createdAt` gives newest first, and ties keep collection order. The model sorts with a stable insertion sort.

### Consequences of the code worth knowing

- **`createdAt` reset.** The comment at components/AdminPanel.tsx:53 says the time is updated "on publish/re-publish". The code in fact resets `createdAt` on every save, including a draft save and an edit of an already-published post (components/AdminPanel.tsx:50-54). `Admin.SavePost` states this.
- **Delete.** The filter removes every entry with the id, not just one (components/AdminPanel.tsx:122).
- **Save of a duplicated id.** Only the first entry with the id is replaced (components/AdminPanel.tsx:57-60).
- **Unique ids.** Nothing in the code checks that ids are unique, including for a collection loaded from storage. The model proves that every action preserves distinct ids, and that a session starting from the seed keeps them distinct (`App.SeededIdsStayDistinct`).
- **Required fields.** Title and content must be non-empty but may be all whitespace (components/AdminPanel.tsx:44, `Admin.BlankFormAccepted`). Only comments are trimmed.

## Model

| member | source | states |
|---|---|---|
| Types.FindIndex | components/AdminPanel.tsx:57 | the index returned holds the id and no earlier index does; "not found" means no entry has the id |
| Text.Trim | App.tsx:67 | the trimmed string is a contiguous piece of the input with only whitespace before and after it, and it neither starts nor ends with whitespace |
| Text.Includes | App.tsx:118-119 | every string includes the empty string and itself, and no string includes a longer one |
| Text.TrimEmptyIffBlank | App.tsx:67 | `trim()` yields the empty string exactly when every character is ECMAScript whitespace |
| Viewer.OpenPost | App.tsx:59-63 | the opened post's view count (a missing one read as 0) goes up by exactly one and no other field changes; other posts, the length and the id order are untouched; an unknown id leaves the collection identical |
| Viewer.OpenTimesAddsN | App.tsx:61 | opening a post N times adds exactly N to its view count and changes no other post |
| Viewer.AddComment | App.tsx:65-80 | a blank input or no selection changes nothing; otherwise the selected post gets one more comment, with the text as typed plus the given id and time, in front of its old comments, which keep their order; nothing else changes |
| Viewer.React | App.tsx:82-93 | with no selection nothing changes; otherwise the selected post's counter for the emoji becomes its old value (0 if absent) plus one, every other counter keeps its key and value, and no other post or field changes |
| Viewer.ReactTimesAddsN | App.tsx:86-87 | N clicks on one emoji add exactly N to that counter and leave every other counter and every other post unchanged |
| Viewer.OpenOnlyGrows | App.tsx:61 | opening never lowers a view count or reaction counter and never loses a comment |
| Viewer.CommentOnlyGrows | App.tsx:75-77 | commenting keeps every old comment, in order, after the new one, and lowers no counter |
| Viewer.ReactOnlyGrows | App.tsx:84-91 | reacting never lowers any counter and keeps every comment |
| Feed.SortNewestFirst | App.tsx:121 | the sorted sequence is newest first and is a permutation of its input |
| Feed.InsertStable | App.tsx:121 | inserting a post puts it in front of the posts with the same timestamp and leaves other timestamps' posts as they were |
| Feed.SortStable | App.tsx:121 | the sort is stable: the posts sharing any one timestamp keep their input order |
| Feed.NewestFirstStableIsUnique | App.tsx:121 | two newest-first sequences that agree on the posts of every timestamp are equal, so stability plus order fixes the sort's result |
| Feed.Query | App.tsx:113-121 | the feed is newest first, no longer than the collection, and every listed post is in the collection and passes the visibility, category and search tests |
| Feed.FeedMember | App.tsx:113-121 | a post is listed exactly when it is in the collection and passes the visibility, category and search tests |
| Feed.FeedIsFilteredPermutation | App.tsx:113-121 | the feed holds exactly the passing posts, each as many times as the collection holds it |
| Feed.FeedOrder | App.tsx:113-121 | the feed is newest first, and posts with equal timestamps appear in collection order |
| Feed.FeedOrderIsForced | App.tsx:113-121 | any newest-first arrangement of the passing posts that keeps equal timestamps in collection order is the feed |
| Feed.FeedRespectsFilters | App.tsx:115-120 | outside the admin view every listed post is published; with a category chosen every listed post has it; every listed post's lower-cased title or content contains the lower-cased query |
| Feed.EmptyQueryMatchesAll | App.tsx:118-119 | an empty search matches every post |
| Feed.FiltersIntersect | App.tsx:117-120 | a post passes the category and search filters together exactly when it passes each one alone |
| Admin.NewPostTemplate | components/AdminPanel.tsx:15-29 | a new form has the fresh id and current time, empty title and content, draft status, 0 views, no comments, no reactions, no media, the technology category and the default author |
| Admin.EditOf | components/AdminPanel.tsx:121 | the edit form is a copy of the post: saving it unchanged as a draft at the post's own time gives the post back, and it passes validation exactly when the post's title and content are non-empty |
| Admin.ApplyEdit | components/AdminPanel.tsx:150-211 | each input sets its own field (title, category, media type, media URL or content) to the entered value and leaves every other form field unchanged; id, timestamp, author, status, views, comments and reactions are never touched |
| Admin.ToSave | components/AdminPanel.tsx:49-54 | the post to save takes every field from the form except that its timestamp is `now` and its status is published when publishing, else the form's status, else draft |
| Admin.BlankFormAccepted | components/AdminPanel.tsx:44 | validation only checks that title and content are non-empty, so a form whose title and content are only whitespace is saved |
| Admin.Upsert | components/AdminPanel.tsx:56-63 | an existing id is replaced at its first index and the rest of the collection is kept; a new id is appended at the end; the ids are unchanged or gain the new id at the end; distinct ids stay distinct |
| Admin.SavePost | components/AdminPanel.tsx:43-70 | rejects exactly when no form is open or the title or content is empty; otherwise the saved post is in the result, stamped with `now`, published when publishing, else its previous status or draft; it replaces the first entry with its id in place, or is appended; distinct ids stay distinct |
| Admin.DeletePost | components/AdminPanel.tsx:122 | no entry of the result has the deleted id, and the result is no longer than the collection |
| Admin.DeleteRemovesExactly | components/AdminPanel.tsx:122 | delete removes every entry with the id and nothing else, keeps every other entry's copies and their relative order, and is a no-op for an absent id |
| Admin.FilterKeepsDistinctIds | components/AdminPanel.tsx:122 | filtering a collection with distinct ids keeps them distinct |
| Admin.DeleteKeepsDistinctIds | components/AdminPanel.tsx:122 | after a delete no entry has the id, and distinct ids stay distinct |
| Admin.TemplateNeedsTitleAndContent | components/AdminPanel.tsx:44-47 | a fresh template is refused whether published or saved as a draft |
| Admin.ResaveTouchesOnlyTimestamp | components/AdminPanel.tsx:49-60 | saving an unchanged edit of a stored post rewrites it in place, changing only its timestamp and, when publishing, its status |
| App.Seed | App.tsx:27-42 | the first-run collection is one published post with id "1", 124 views, no comments, and 5 and 3 on its two seeded reactions |
| App.Init | App.tsx:22-46 | after the first render the stored collection is used as is, or else the seed is installed and stored; storage then equals the collection |
| App.SavePosts | App.tsx:48-51 | the collection is replaced, storage receives the same collection, and nothing else changes |
| App.Step | App.tsx:48-93 | every action leaves storage equal to the collection if it was before; any change to the collection is written to storage; distinct ids stay distinct |
| App.ReaderStepEffect | App.tsx:53-290 | navigating sets the page and category and, away from the admin view, closes the form; searching and typing store the text; closing clears the selection; none of these touches the collection or storage; opening selects the post and installs the opened collection; commenting installs the commented collection and, when the comment goes through, clears the input; reacting installs the reacted collection |
| App.AdminStepEffect | components/AdminPanel.tsx:15-229 | the new-post button opens the blank template, the edit button a copy of the post, each input edits the open form, cancel closes it, all leaving the collection and storage alone; a refused save changes nothing, a save that goes through installs its collection and closes the form; a confirmed delete installs the filtered collection and an unconfirmed one keeps it |
| App.StepFrame | App.tsx:53-93 | only navigation changes the page and category, only searching changes the query, and only opening and closing a post change the selection |
| App.NoDraftListedPublicly | App.tsx:115 | no page other than the admin panel lists a draft |
| App.Run | App.tsx:48-51 | after any sequence of actions storage still equals the collection, and distinct ids stay distinct |
| App.ReloadRestoresCollection | App.tsx:22-51 | after any session, a reload starts from exactly the collection the session ended with |
| App.SeededIdsStayDistinct | App.tsx:27-42 | starting from the seed, ids stay distinct whatever the user does |
| App.ReaderActionsOnlyGrow | App.tsx:59-93 | opening, commenting and reacting keep the id sequence and never lower a count or lose a comment |
| App.Listing | App.tsx:128-180 | every page lists only posts of the collection, and every page other than the admin panel lists only published ones |
| App.SeedScenario | App.tsx:27-63 | opening the seed post makes its views 125 and stores it; a reload lists exactly that post on the unfiltered home page |
| App.EmptyContentRejected | components/AdminPanel.tsx:44-47 | publishing a form with empty content changes nothing, neither the collection, the storage nor the open form |
| App.BlankCommentIgnored | App.tsx:67 | submitting an empty or whitespace-only comment changes nothing |
| App.DraftStaysPrivate | App.tsx:115 | a post saved as a draft is in the admin panel's listing and absent from every public page's listing, whatever the page, category or search |

## Left out

- **Rendering.** The JSX, the header, hero, post card and footer components, and the privacy and terms pages are not modelled. They are presentation only.
- **Storage I/O.** `localStorage` and JSON (de)serialisation are not modelled. The storage entry holds the collection value itself, so the model does not capture what a JSON round trip drops (absent fields). Storage failures are not modelled either.
- **Nondeterministic inputs.** `Date.now()`, `Math.random()` ids and the delete confirmation dialog are parameters of the actions (`now`, `freshId`, `commentId`, `confirmed`).
- **File upload.** The asynchronous `FileReader` upload is covered only by its effect: a `SetMediaUrl` form edit carrying the data URL.
- **Browser calls.** Share and clipboard actions, `alert` and `window.scrollTo` are side effects with no bearing on the collection, and are not modelled.
- **Access code.** The footer's access-code check is a single string comparison, and is not modelled.
- **Header timers.** The header's interval and scroll listeners are not modelled.
- **Unicode lower-casing.** `toLowerCase` is the abstract parameter `lower`, so its Unicode case mapping is not modelled.
- **JavaScript number semantics.** Counters and timestamps are unbounded integers. Floating-point precision loss and `NaN` values are not modelled.
- **Admin-view gating.** Admin actions are not restricted to the admin view in `App.Step`. The source only renders their buttons there.
- **React batching.** React's deferred state updates are not modelled. Each action sees the state left by the previous one, as it does for the sequential clicks the page handles.

=== FILE: admin.dfy ===
/** The admin panel's operations on the collection: the new-post template,
    editing a form, saving it (validation, status choice, replace or append)
    and deleting a post. */
module Admin {
  import opened Types
  import Seqs
  import Text

  /** The post being edited: `Partial<Post>`. A missing title or content is
      represented by the empty string (both are false to JavaScript); the
      status may be absent. */
  datatype PartialPost = PartialPost(
    id: string,
    title: string,
    category: Category,
    content: string,
    mediaUrl: Option<string>,
    mediaType: MediaType,
    createdAt: int,
    author: string,
    views: Option<nat>,
    comments: Option<seq<Comment>>,
    reactions: Option<Reactions>,
    status: Option<Status>)

  /** The author label the panel stamps on new posts. */
  const DefaultAuthor: string := "Informante Live"

  /** `handleAddPost`: a blank draft with a fresh id, created now. */
  function NewPostTemplate(freshId: string, now: int): (e: PartialPost)
    ensures e.id == freshId && e.createdAt == now
    ensures e.title == [] && e.content == []
    ensures e.status == Some(Draft) && e.views == Some(0)
    ensures e.comments == Some([]) && e.reactions == Some(map[])
    ensures e.mediaType == NoMedia && e.mediaUrl == Some([])
    ensures e.category == Tecnologia && e.author == DefaultAuthor
  {
    PartialPost(freshId, [], Tecnologia, [], Some([]), NoMedia, now, DefaultAuthor,
                Some(0), Some([]), Some(map[]), Some(Draft))
  }

  /** The edit button: the form starts as a copy of the post, so saving it
      unchanged as a draft at the post's own timestamp gives the post back, and
      it passes validation exactly when the post's title and content are
      filled in. */
  function EditOf(p: Post): (e: PartialPost)
    ensures ToSave(e, false, p.createdAt) == p
    ensures Complete(e) <==> p.title != [] && p.content != []
  {
    PartialPost(p.id, p.title, p.category, p.content, p.mediaUrl, p.mediaType, p.createdAt, p.author,
                p.views, p.comments, p.reactions, Some(p.status))
  }

  /** One change made through the form's inputs (a file upload sets the media
      URL to the file's data URL). */
  datatype FormEdit =
    | SetTitle(title: string)
    | SetCategory(category: Category)
    | SetMediaType(mediaType: MediaType)
    | SetMediaUrl(url: string)
    | SetContent(content: string)

  /** `setEditingPost({...editingPost, field: value})`: the form inputs can
      only change the title, category, media and content; the id, counters,
      comments, status and timestamp stay as they were. */
  function ApplyEdit(e: PartialPost, edit: FormEdit): (r: PartialPost)
    ensures r.id == e.id && r.createdAt == e.createdAt && r.author == e.author && r.status == e.status
    ensures r.views == e.views && r.comments == e.comments && r.reactions == e.reactions
    ensures edit.SetTitle? ==> r.title == edit.title
    ensures edit.SetContent? ==> r.content == edit.content
    ensures !edit.SetTitle? ==> r.title == e.title
    ensures !edit.SetContent? ==> r.content == e.content
    ensures edit.SetCategory? ==> r.category == edit.category
    ensures !edit.SetCategory? ==> r.category == e.category
    ensures edit.SetMediaType? ==> r.mediaType == edit.mediaType
    ensures !edit.SetMediaType? ==> r.mediaType == e.mediaType
    ensures edit.SetMediaUrl? ==> r.mediaUrl == Some(edit.url)
    ensures !edit.SetMediaUrl? ==> r.mediaUrl == e.mediaUrl
  {
    match edit
    case SetTitle(t) => e.(title := t)
    case SetCategory(c) => e.(category := c)
    case SetMediaType(m) => e.(mediaType := m)
    case SetMediaUrl(u) => e.(mediaUrl := Some(u))
    case SetContent(c) => e.(content := c)
  }

  /** The form passes validation: title and content are both filled in (a
      title or content of spaces passes). */
  predicate Complete(e: PartialPost) {
    e.title != [] && e.content != []
  }

  /** `postToSave`: the form with its status settled and its timestamp reset;
      every other field is taken from the form. */
  function ToSave(e: PartialPost, publishNow: bool, now: int): (p: Post)
    ensures p.createdAt == now
    ensures publishNow ==> p.status == Published
    ensures !publishNow && e.status.Some? ==> p.status == e.status.value
    ensures !publishNow && e.status.None? ==> p.status == Draft
    ensures p.id == e.id && p.title == e.title && p.content == e.content && p.category == e.category
    ensures p.mediaUrl == e.mediaUrl && p.mediaType == e.mediaType && p.author == e.author
    ensures p.views == e.views && p.comments == e.comments && p.reactions == e.reactions
  {
    Post(e.id, e.title, e.category, e.content, e.mediaUrl, e.mediaType, now, e.author,
         e.views, e.comments, e.reactions,
         if publishNow then Published else e.status.GetOr(Draft))
  }

  /** `k` is the first index holding id `id`. */
  predicate FirstWithId(posts: seq<Post>, id: string, k: int) {
    0 <= k < |posts| && posts[k].id == id && forall j :: 0 <= j < k ==> posts[j].id != id
  }

  /** Replace the first entry with `p`'s id by `p`, or append `p` when there is
      none; every other entry stays where it was. */
  function Upsert(posts: seq<Post>, p: Post): (r: seq<Post>)
    ensures p.id in Ids(posts) ==> exists k :: FirstWithId(posts, p.id, k) && r == posts[k := p]
    ensures p.id !in Ids(posts) ==> r == posts + [p]
    ensures Ids(r) == if p.id in Ids(posts) then Ids(posts) else Ids(posts) + [p.id]
    ensures DistinctIds(posts) ==> DistinctIds(r)
  {
    match FindIndex(posts, p.id)
    case Some(k) =>
      assert FirstWithId(posts, p.id, k);
      assert Ids(posts[k := p]) == Ids(posts);
      posts[k := p]
    case None =>
      assert Ids(posts + [p]) == Ids(posts) + [p.id];
      posts + [p]
  }

  /** Whether the save went through, and the new collection if it did. */
  datatype SaveOutcome = Rejected | Saved(posts: seq<Post>)

  /** `handleSavePost(publishNow)`: with no form open, or a missing title or
      content, nothing is saved; otherwise the post is saved with status
      published when publishing and its previous status (draft if none)
      otherwise, stamped with the current time, replacing the entry with its
      id or appended after all others. */
  function SavePost(posts: seq<Post>, editing: Option<PartialPost>, publishNow: bool, now: int): (r: SaveOutcome)
    ensures r.Rejected? <==> editing.None? || !Complete(editing.value)
    ensures r.Saved? ==>
      var p := ToSave(editing.value, publishNow, now);
      && p in r.posts
      && p.createdAt == now
      && p.status == (if publishNow then Published else editing.value.status.GetOr(Draft))
      && (p.id in Ids(posts) ==> |r.posts| == |posts| && exists k :: FirstWithId(posts, p.id, k) && r.posts == posts[k := p])
      && (p.id !in Ids(posts) ==> r.posts == posts + [p])
      && (DistinctIds(posts) ==> DistinctIds(r.posts))
  {
    if editing.None? || !Complete(editing.value) then Rejected
    else
      var p := ToSave(editing.value, publishNow, now);
      var r := Upsert(posts, p);
      assert p in r by {
        if p.id in Ids(posts) {
          var k :| FirstWithId(posts, p.id, k) && r == posts[k := p];
          assert r[k] == p;
        } else {
          assert r[|posts|] == p;
        }
      }
      Saved(r)
  }

  /** The delete button: `posts.filter(p => p.id !== id)`. No entry of the
      result has the deleted id. */
  function DeletePost(posts: seq<Post>, id: string): (r: seq<Post>)
    ensures |r| <= |posts|
    ensures forall i :: 0 <= i < |r| ==> r[i].id != id
  {
    Seqs.Filter(posts, (p: Post) => p.id != id)
  }

  /** Delete removes exactly the entries with id `id`: every other entry keeps
      all its copies and their relative order; an absent id changes nothing. */
  lemma DeleteRemovesExactly(posts: seq<Post>, id: string)
    ensures forall x :: x in DeletePost(posts, id) <==> x in posts && x.id != id
    ensures forall x :: multiset(DeletePost(posts, id))[x] == if x.id == id then 0 else multiset(posts)[x]
    ensures Seqs.IsSubsequence(DeletePost(posts, id), posts)
    ensures id !in Ids(posts) ==> DeletePost(posts, id) == posts
  {
    var keep := (p: Post) => p.id != id;
    forall x
      ensures x in DeletePost(posts, id) <==> x in posts && x.id != id
      ensures multiset(DeletePost(posts, id))[x] == if x.id == id then 0 else multiset(posts)[x]
    {
      Seqs.FilterMembership(posts, keep, x);
      Seqs.FilterCount(posts, keep, x);
    }
    Seqs.FilterIsSubsequence(posts, keep);
    if id !in Ids(posts) {
      forall i | 0 <= i < |posts|
        ensures keep(posts[i])
      {
        assert Ids(posts)[i] == posts[i].id;
      }
      Seqs.FilterKeepsAll(posts, keep);
    }
  }

  /** Filtering a collection with distinct ids leaves the ids distinct. */
  lemma {:induction false} FilterKeepsDistinctIds(posts: seq<Post>, keep: Post -> bool)
    requires DistinctIds(posts)
    ensures DistinctIds(Seqs.Filter(posts, keep))
    decreases |posts|
  {
    if posts != [] {
      var rest := Seqs.Filter(posts[1..], keep);
      FilterKeepsDistinctIds(posts[1..], keep);
      if keep(posts[0]) {
        forall j | 0 <= j < |rest|
          ensures rest[j].id != posts[0].id
        {
          Seqs.FilterMembership(posts[1..], keep, rest[j]);
          var k :| 0 <= k < |posts[1..]| && posts[1..][k] == rest[j];
          assert posts[k + 1] == rest[j];
        }
        assert Seqs.Filter(posts, keep) == [posts[0]] + rest;
      } else {
        assert Seqs.Filter(posts, keep) == rest;
      }
    }
  }

  /** After a delete no entry has the deleted id, and distinct ids stay
      distinct. */
  lemma DeleteKeepsDistinctIds(posts: seq<Post>, id: string)
    ensures id !in Ids(DeletePost(posts, id))
    ensures DistinctIds(posts) ==> DistinctIds(DeletePost(posts, id))
  {
    DeleteRemovesExactly(posts, id);
    if DistinctIds(posts) {
      FilterKeepsDistinctIds(posts, (p: Post) => p.id != id);
    }
  }

  /** Validation only checks that title and content are non-empty: a form
      whose title and content are nothing but spaces is saved. */
  lemma BlankFormAccepted(posts: seq<Post>, e: PartialPost, publishNow: bool, now: int)
    requires e.title != [] && e.content != []
    requires Text.IsBlank(e.title) && Text.IsBlank(e.content)
    ensures Complete(e)
    ensures SavePost(posts, Some(e), publishNow, now).Saved?
  {
  }

  /** A fresh template cannot be saved until its title and content are filled
      in, whether published or saved as a draft. */
  lemma TemplateNeedsTitleAndContent(posts: seq<Post>, freshId: string, created: int, publishNow: bool, now: int)
    ensures SavePost(posts, Some(NewPostTemplate(freshId, created)), publishNow, now) == Rejected
  {
  }

  /** Saving an edit of a stored post without changing the form, in a
      collection with distinct ids, rewrites that post in place with only its
      timestamp (and, when publishing, its status) changed. */
  lemma ResaveTouchesOnlyTimestamp(posts: seq<Post>, k: nat, publishNow: bool, now: int)
    requires k < |posts| && DistinctIds(posts)
    requires posts[k].title != [] && posts[k].content != []
    ensures SavePost(posts, Some(EditOf(posts[k])), publishNow, now)
         == Saved(posts[k := posts[k].(createdAt := now, status := if publishNow then Published else posts[k].status)])
  {
  }
}

=== FILE: app.dfy ===
/** The application's state and its transitions: the session's UI state, the
    post collection, and the one storage entry that mirrors it. Every action
    that changes the collection writes the whole new collection to storage in
    the same step (`savePosts`). */
module App {
  import opened Types
  import Text
  import Viewer
  import Feed
  import Admin

  /** The application state. `storage` is the value held under the
      collection's storage key (`None` when nothing is stored); `editing` is
      the admin panel's open form. */
  datatype AppState = AppState(
    view: ViewState,
    category: Option<Category>,
    posts: seq<Post>,
    query: string,
    selected: Option<string>,
    commentInput: string,
    editing: Option<Admin.PartialPost>,
    storage: Option<seq<Post>>)

  /** The stored collection is the one in memory. */
  predicate Persisted(app: AppState) {
    app.storage == Some(app.posts)
  }

  const SeedTitle: string := "Exploração de Novos Horizontes Tecnológicos"
  const SeedContent: string := "A Live+ anuncia sua nova divisão focada em inteligência espacial e comunicações quânticas."
  const SeedMediaUrl: string := "https://picsum.photos/id/1/1200/600"

  /** The collection installed on a first run, created at `now`. */
  function Seed(now: int): (posts: seq<Post>)
    ensures |posts| == 1 && posts[0].id == "1" && posts[0].status == Published
    ensures posts[0].ViewCount() == 124 && posts[0].CommentList() == []
    ensures posts[0].ReactionCount("🚀") == 5 && posts[0].ReactionCount("🔥") == 3
  {
    [Post("1",
          SeedTitle,
          Tecnologia,
          SeedContent,
          Some(SeedMediaUrl),
          Image,
          now,
          "Informante Live",
          Some(124),
          Some([]),
          Some(map["🚀" := 5, "🔥" := 3]),
          Published)]
  }

  /** The state after the first render's effect: the stored collection as is,
      or, when nothing is stored, the seed collection, stored at once. */
  function Init(stored: Option<seq<Post>>, now: int): (app: AppState)
    ensures Persisted(app)
    ensures stored.Some? ==> app.posts == stored.value
    ensures stored.None? ==> app.posts == Seed(now)
    ensures app.view == Home && app.category == None && app.query == []
    ensures app.selected == None && app.commentInput == [] && app.editing == None
  {
    var posts := if stored.Some? then stored.value else Seed(now);
    AppState(Home, None, posts, [], None, [], None, Some(posts))
  }

  /** `savePosts`: replace the collection and write it to storage. */
  function SavePosts(app: AppState, posts: seq<Post>): (r: AppState)
    ensures Persisted(r) && r.posts == posts
    ensures r.(posts := app.posts, storage := app.storage) == app
  {
    app.(posts := posts, storage := Some(posts))
  }

  /** The user's actions. `freshId`, `commentId` and `now` stand for the
      random ids and clock readings the handlers take; `confirmed` is the
      answer to the delete confirmation dialog. */
  datatype Action =
    | Navigate(to: ViewState, filter: Option<Category>)
    | Search(text: string)
    | OpenPost(id: string)
    | ClosePost
    | TypeComment(text: string)
    | SubmitComment(commentId: string, now: int)
    | React(emoji: string)
    | NewPost(freshId: string, now: int)
    | EditPost(index: nat)
    | EditForm(edit: Admin.FormEdit)
    | CancelEdit
    | SavePost(publishNow: bool, now: int)
    | DeletePost(postId: string, confirmed: bool)

  /** The effect of one action. Leaving the admin view unmounts the admin
      panel, which discards its open form. */
  function Step(app: AppState, a: Action): (r: AppState)
    ensures Persisted(app) ==> Persisted(r)
    ensures r.posts != app.posts ==> r.storage == Some(r.posts)
    ensures r.storage == app.storage || r.storage == Some(r.posts)
    ensures DistinctIds(app.posts) ==> DistinctIds(r.posts)
  {
    match a
    case Navigate(to, filter) =>
      app.(view := to, category := filter, editing := if to == AdminView then app.editing else None)
    case Search(text) => app.(query := text)
    case OpenPost(id) =>
      SavePosts(app.(selected := Some(id)), Viewer.OpenPost(app.posts, id))
    case ClosePost => app.(selected := None)
    case TypeComment(text) => app.(commentInput := text)
    case SubmitComment(commentId, now) =>
      Text.TrimEmptyIffBlank(app.commentInput);
      if Text.Trim(app.commentInput) == [] || !Viewer.HasSelection(app.selected) then app
      else
        var posts := Viewer.AddComment(app.posts, app.selected, app.commentInput, commentId, now);
        SavePosts(app, posts).(commentInput := [])
    case React(emoji) =>
      if !Viewer.HasSelection(app.selected) then app
      else SavePosts(app, Viewer.React(app.posts, app.selected, emoji))
    case NewPost(freshId, now) => app.(editing := Some(Admin.NewPostTemplate(freshId, now)))
    case EditPost(index) =>
      if index < |app.posts| then app.(editing := Some(Admin.EditOf(app.posts[index]))) else app
    case EditForm(edit) =>
      if app.editing.Some? then app.(editing := Some(Admin.ApplyEdit(app.editing.value, edit))) else app
    case CancelEdit => app.(editing := None)
    case SavePost(publishNow, now) =>
      var outcome := Admin.SavePost(app.posts, app.editing, publishNow, now);
      if outcome.Rejected? then app else SavePosts(app, outcome.posts).(editing := None)
    case DeletePost(postId, confirmed) =>
      if confirmed then
        Admin.DeleteKeepsDistinctIds(app.posts, postId);
        SavePosts(app, Admin.DeletePost(app.posts, postId))
      else app
  }

  /** What the page's own handlers do. Navigating, searching, typing and
      closing a post only set their piece of the UI state and leave the
      collection and storage alone; opening a post selects it and counts the
      view; a comment that goes through is stored and clears the input;
      reacting stores the new counter. */
  lemma ReaderStepEffect(app: AppState, a: Action)
    ensures a.Navigate? || a.Search? || a.ClosePost? || a.TypeComment? ==>
      Step(app, a).posts == app.posts && Step(app, a).storage == app.storage
    ensures a.Navigate? ==> Step(app, a).view == a.to && Step(app, a).category == a.filter
    ensures a.Navigate? && a.to != AdminView ==> Step(app, a).editing == None
    ensures a.Search? ==> Step(app, a).query == a.text
    ensures a.OpenPost? ==> Step(app, a).posts == Viewer.OpenPost(app.posts, a.id) && Step(app, a).selected == Some(a.id)
    ensures a.ClosePost? ==> Step(app, a).selected == None
    ensures a.TypeComment? ==> Step(app, a).commentInput == a.text
    ensures a.SubmitComment? ==>
      Step(app, a).posts == Viewer.AddComment(app.posts, app.selected, app.commentInput, a.commentId, a.now)
    ensures a.SubmitComment? && !Text.IsBlank(app.commentInput) && Viewer.HasSelection(app.selected) ==>
      Step(app, a).commentInput == []
    ensures a.React? ==> Step(app, a).posts == Viewer.React(app.posts, app.selected, a.emoji)
  {
    match a
    case SubmitComment(_, _) => Text.TrimEmptyIffBlank(app.commentInput);
    case _ =>
  }

  /** Only navigation changes the page and category, only searching changes
      the query, and only opening and closing a post change the selection. */
  lemma StepFrame(app: AppState, a: Action)
    ensures !a.Navigate? && !a.Search? ==>
      Step(app, a).view == app.view && Step(app, a).category == app.category && Step(app, a).query == app.query
    ensures !a.OpenPost? && !a.ClosePost? ==> Step(app, a).selected == app.selected
  {
  }

  /** What the admin panel's handlers do. The new-post button opens a blank
      template, the edit button opens a copy of the post, the inputs edit the
      open form and cancel closes it, all without touching the collection or
      storage; a save that goes through stores its result and closes the form,
      a refused one changes nothing; a confirmed delete stores the filtered
      collection. */
  lemma AdminStepEffect(app: AppState, a: Action)
    ensures a.NewPost? || a.EditPost? || a.EditForm? || a.CancelEdit? ==>
      Step(app, a).posts == app.posts && Step(app, a).storage == app.storage
    ensures a.NewPost? ==> Step(app, a).editing == Some(Admin.NewPostTemplate(a.freshId, a.now))
    ensures a.EditPost? && a.index < |app.posts| ==> Step(app, a).editing == Some(Admin.EditOf(app.posts[a.index]))
    ensures a.EditForm? && app.editing.Some? ==> Step(app, a).editing == Some(Admin.ApplyEdit(app.editing.value, a.edit))
    ensures a.CancelEdit? ==> Step(app, a).editing == None
    ensures a.SavePost? && Admin.SavePost(app.posts, app.editing, a.publishNow, a.now).Rejected? ==> Step(app, a) == app
    ensures a.SavePost? && Admin.SavePost(app.posts, app.editing, a.publishNow, a.now).Saved? ==>
      Step(app, a).posts == Admin.SavePost(app.posts, app.editing, a.publishNow, a.now).posts && Step(app, a).editing == None
    ensures a.DeletePost? ==>
      Step(app, a).posts == if a.confirmed then Admin.DeletePost(app.posts, a.postId) else app.posts
  {
  }

  /** The state after a sequence of actions. Storage keeps mirroring the
      collection, and distinct ids stay distinct, whatever the actions. */
  function Run(app: AppState, actions: seq<Action>): (r: AppState)
    ensures Persisted(app) ==> Persisted(r)
    ensures DistinctIds(app.posts) ==> DistinctIds(r.posts)
    decreases |actions|
  {
    if actions == [] then app else Run(Step(app, actions[0]), actions[1..])
  }

  /** From the first render on, whatever the user does, storage holds exactly
      the collection in memory, so a new session (a reload) starts from the
      very collection the last one ended with. */
  lemma {:induction false} ReloadRestoresCollection(stored: Option<seq<Post>>, now: int, actions: seq<Action>, later: int)
    ensures Persisted(Run(Init(stored, now), actions))
    ensures Init(Run(Init(stored, now), actions).storage, later).posts == Run(Init(stored, now), actions).posts
  {
  }

  /** Starting from the seed collection, post ids stay pairwise distinct
      whatever the user does. */
  lemma {:induction false} SeededIdsStayDistinct(now: int, actions: seq<Action>)
    ensures DistinctIds(Run(Init(None, now), actions).posts)
  {
  }

  /** Opening, commenting and reacting only ever add: no post disappears or
      moves, no view count or reaction counter goes down, and a post's old
      comments are all still there, in order, after any new ones. */
  lemma ReaderActionsOnlyGrow(app: AppState, a: Action)
    requires a.OpenPost? || a.SubmitComment? || a.React?
    ensures Ids(Step(app, a).posts) == Ids(app.posts)
    ensures forall i :: 0 <= i < |app.posts| ==> Viewer.Grew(app.posts[i], Step(app, a).posts[i])
  {
    match a {
      case OpenPost(id) => Viewer.OpenOnlyGrows(app.posts, id);
      case SubmitComment(commentId, now) =>
        Viewer.CommentOnlyGrows(app.posts, app.selected, app.commentInput, commentId, now);
        forall i | 0 <= i < |app.posts| {
          Viewer.GrewReflexive(app.posts[i]);
        }
      case React(emoji) =>
        Viewer.ReactOnlyGrows(app.posts, app.selected, emoji);
        forall i | 0 <= i < |app.posts| {
          Viewer.GrewReflexive(app.posts[i]);
        }
    }
  }

  /** The posts the current page lists: the admin panel lists the whole
      collection in stored order, the privacy and terms pages list none, and
      the home and category pages list the feed query. Only stored posts are
      listed, and only published ones outside the admin view. */
  function Listing(app: AppState, lower: string -> string): (r: seq<Post>)
    ensures forall i :: 0 <= i < |r| ==> r[i] in app.posts
    ensures app.view != AdminView ==> forall i :: 0 <= i < |r| ==> r[i].status == Published
  {
    match app.view
    case AdminView => app.posts
    case Privacy | Terms => []
    case _ => Feed.Query(app.posts, app.view, app.category, app.query, lower)
  }

  /** First run: the seed post has 124 views; opening it once makes that 125
      and stores it; a new session then lists exactly that post, and nothing
      else, on the unfiltered home page. */
  lemma SeedScenario(now: int, later: int, lower: string -> string)
    requires lower([]) == []
    ensures var afterOpen := Step(Init(None, now), OpenPost("1"));
      && afterOpen.posts[0].ViewCount() == 125
      && Persisted(afterOpen)
      && Listing(Init(afterOpen.storage, later), lower) == afterOpen.posts
      && |afterOpen.posts| == 1
  {
    var afterOpen := Step(Init(None, now), OpenPost("1"));
    var p := afterOpen.posts[0];
    Feed.EmptyQueryMatchesAll(p, lower);
    assert Feed.Shown(p, Home, None, [], lower);
    assert afterOpen.posts == [p];
  }

  /** Publishing a form whose content is empty is refused: the collection, the
      storage and the open form stay exactly as they were. */
  lemma EmptyContentRejected(app: AppState, now: int)
    requires app.editing.Some? && app.editing.value.content == []
    ensures Step(app, SavePost(true, now)) == app
  {
  }

  /** A whitespace-only (or empty) comment changes nothing. */
  lemma BlankCommentIgnored(app: AppState, commentId: string, now: int)
    requires Text.IsBlank(app.commentInput)
    ensures Step(app, SubmitComment(commentId, now)) == app
  {
  }

  /** Saving a form as a draft puts the post in the admin listing and keeps
      it out of every public listing, whatever the page, category or search. */
  lemma DraftStaysPrivate(app: AppState, now: int, to: ViewState, filter: Option<Category>, q: string, lower: string -> string)
    requires app.view == AdminView
    requires app.editing.Some? && Admin.Complete(app.editing.value)
    requires app.editing.value.status != Some(Published)
    requires to != AdminView
    ensures var saved := Step(app, SavePost(false, now));
      var p := Admin.ToSave(app.editing.value, false, now);
      && p.status == Draft
      && p in Listing(saved, lower)
      && p !in Listing(Step(Step(saved, Navigate(to, filter)), Search(q)), lower)
  {
    var p := Admin.ToSave(app.editing.value, false, now);
    var saved := Step(app, SavePost(false, now));
    assert p in saved.posts;
    var public := Step(Step(saved, Navigate(to, filter)), Search(q));
    NoDraftListedPublicly(public, lower, p);
  }

  /** No public page lists a draft. */
  lemma NoDraftListedPublicly(app: AppState, lower: string -> string, p: Post)
    requires app.view != AdminView && p.status == Draft
    ensures p !in Listing(app, lower)
  {
  }
}

=== FILE: feed.dfy ===
/** The feed query: the posts the current page may show, filtered by
    visibility, category and a case-insensitive search, newest first.
    Lower-casing is a parameter `lower` standing for `toLowerCase`. */
module Feed {
  import opened Types
  import Text
  import Seqs

  /** Outside the admin view only published posts are shown. */
  predicate Visible(p: Post, view: ViewState) {
    view == AdminView || p.status == Published
  }

  /** No category filter, or the post is filed under the chosen category. */
  predicate InCategory(p: Post, category: Option<Category>) {
    category.None? || p.category == category.value
  }

  /** The lower-cased query occurs in the lower-cased title or content. */
  predicate MatchesSearch(p: Post, query: string, lower: string -> string) {
    Text.Includes(lower(p.title), lower(query)) || Text.Includes(lower(p.content), lower(query))
  }

  /** The feed's filter callback. */
  predicate Shown(p: Post, view: ViewState, category: Option<Category>, query: string, lower: string -> string) {
    Visible(p, view) && InCategory(p, category) && MatchesSearch(p, query, lower)
  }

  function ShownBy(view: ViewState, category: Option<Category>, query: string, lower: string -> string): (keep: Post -> bool) {
    (p: Post) => Shown(p, view, category, query, lower)
  }

  /** Posts created at instant `t`. */
  function CreatedAtIs(t: int): (keep: Post -> bool) {
    (p: Post) => p.createdAt == t
  }

  /** Newest first: `createdAt` never increases along the sequence. */
  predicate NewestFirst(s: seq<Post>) {
    forall i, j :: 0 <= i < j < |s| ==> s[i].createdAt >= s[j].createdAt
  }

  /** Places `p` before the first entry of `s` that is not newer than it. */
  function Insert(p: Post, s: seq<Post>): (r: seq<Post>)
    requires NewestFirst(s)
    ensures NewestFirst(r)
    ensures multiset(r) == multiset(s) + multiset{p}
    decreases |s|
  {
    if s == [] || p.createdAt >= s[0].createdAt then
      InsertHere(p, s);
      [p] + s
    else
      var rest := Insert(p, s[1..]);
      InsertFurther(p, s, rest);
      [s[0]] + rest
  }

  /** A post at least as new as the head of a newest-first sequence can go in
      front of it. */
  lemma InsertHere(p: Post, s: seq<Post>)
    requires NewestFirst(s)
    requires s == [] || p.createdAt >= s[0].createdAt
    ensures NewestFirst([p] + s)
    ensures multiset([p] + s) == multiset(s) + multiset{p}
  {
  }

  /** When `p` is older than the head of `s`, the head stays in front of `p`
      inserted into the rest. */
  lemma InsertFurther(p: Post, s: seq<Post>, rest: seq<Post>)
    requires NewestFirst(s) && s != [] && p.createdAt < s[0].createdAt
    requires NewestFirst(rest) && multiset(rest) == multiset(s[1..]) + multiset{p}
    ensures NewestFirst([s[0]] + rest)
    ensures multiset([s[0]] + rest) == multiset(s) + multiset{p}
  {
    assert s == [s[0]] + s[1..];
    forall j | 0 <= j < |rest|
      ensures s[0].createdAt >= rest[j].createdAt
    {
      assert rest[j] in multiset(rest);
      if rest[j] != p {
        assert rest[j] in multiset(s[1..]);
        var k :| 0 <= k < |s[1..]| && s[1..][k] == rest[j];
        assert s[k + 1] == rest[j];
      }
    }
    forall i, j | 0 <= i < j < |[s[0]] + rest|
      ensures ([s[0]] + rest)[i].createdAt >= ([s[0]] + rest)[j].createdAt
    {
      if i > 0 {
        assert ([s[0]] + rest)[i] == rest[i - 1];
      }
    }
  }

  /** `.sort((a, b) => b.createdAt - a.createdAt)`: a stable sort, newest
      first. */
  function SortNewestFirst(s: seq<Post>): (r: seq<Post>)
    ensures NewestFirst(r)
    ensures multiset(r) == multiset(s)
    decreases |s|
  {
    if s == [] then []
    else
      assert s == [s[0]] + s[1..];
      Insert(s[0], SortNewestFirst(s[1..]))
  }

  /** Inserting `p` puts it in front of the posts created at the same instant
      and leaves every other instant's posts as they were. */
  lemma {:induction false} InsertStable(p: Post, s: seq<Post>, t: int)
    requires NewestFirst(s)
    ensures Seqs.Filter(Insert(p, s), CreatedAtIs(t))
         == if p.createdAt == t then [p] + Seqs.Filter(s, CreatedAtIs(t)) else Seqs.Filter(s, CreatedAtIs(t))
    decreases |s|
  {
    var f := CreatedAtIs(t);
    if s == [] || p.createdAt >= s[0].createdAt {
      assert ([p] + s)[1..] == s;
    } else {
      var rest := Insert(p, s[1..]);
      InsertStable(p, s[1..], t);
      assert ([s[0]] + rest)[1..] == rest;
    }
  }

  /** The sort is stable: the posts created at any one instant appear in the
      same order as in the input. */
  lemma {:induction false} SortStable(s: seq<Post>, t: int)
    ensures Seqs.Filter(SortNewestFirst(s), CreatedAtIs(t)) == Seqs.Filter(s, CreatedAtIs(t))
    decreases |s|
  {
    if s != [] {
      SortStable(s[1..], t);
      InsertStable(s[0], SortNewestFirst(s[1..]), t);
    }
  }

  /** Some entry of `s` was created at `t` exactly when the posts of `s`
      created at `t` are not none. */
  lemma HasInstant(s: seq<Post>, t: int)
    ensures Seqs.Filter(s, CreatedAtIs(t)) != [] <==> exists k :: 0 <= k < |s| && s[k].createdAt == t
  {
    var f := Seqs.Filter(s, CreatedAtIs(t));
    if f != [] {
      Seqs.FilterMembership(s, CreatedAtIs(t), f[0]);
    }
    if k :| 0 <= k < |s| && s[k].createdAt == t {
      Seqs.FilterMembership(s, CreatedAtIs(t), s[k]);
    }
  }

  /** Newest-first order with each instant's posts in a given order leaves no
      freedom: two newest-first sequences that agree on the posts of every
      instant are equal. */
  lemma {:induction false} NewestFirstStableIsUnique(a: seq<Post>, b: seq<Post>)
    requires NewestFirst(a) && NewestFirst(b)
    requires forall t :: Seqs.Filter(a, CreatedAtIs(t)) == Seqs.Filter(b, CreatedAtIs(t))
    ensures a == b
    decreases |a| + |b|
  {
    if a == [] || b == [] {
      var c := if a == [] then b else a;
      if c != [] {
        var t := c[0].createdAt;
        HasInstant(a, t);
        HasInstant(b, t);
      }
    } else {
      var ta, tb := a[0].createdAt, b[0].createdAt;
      HasInstant(a, ta);
      HasInstant(b, ta);
      assert Seqs.Filter(a, CreatedAtIs(ta)) == Seqs.Filter(b, CreatedAtIs(ta));
      HasInstant(a, tb);
      HasInstant(b, tb);
      assert Seqs.Filter(a, CreatedAtIs(tb)) == Seqs.Filter(b, CreatedAtIs(tb));
      assert ta == tb;
      forall t
        ensures Seqs.Filter(a[1..], CreatedAtIs(t)) == Seqs.Filter(b[1..], CreatedAtIs(t))
      {
        var fa, fb := Seqs.Filter(a[1..], CreatedAtIs(t)), Seqs.Filter(b[1..], CreatedAtIs(t));
        assert Seqs.Filter(a, CreatedAtIs(t)) == Seqs.Filter(b, CreatedAtIs(t));
        assert Seqs.Filter(a, CreatedAtIs(t)) == (if a[0].createdAt == t then [a[0]] else []) + fa;
        assert Seqs.Filter(b, CreatedAtIs(t)) == (if b[0].createdAt == t then [b[0]] else []) + fb;
        if t == ta {
          assert ([a[0]] + fa)[1..] == fa;
          assert ([b[0]] + fb)[1..] == fb;
        } else {
          assert [] + fa == fa && [] + fb == fb;
        }
      }
      var fa, fb := Seqs.Filter(a[1..], CreatedAtIs(ta)), Seqs.Filter(b[1..], CreatedAtIs(ta));
      assert [a[0]] + fa == [b[0]] + fb;
      assert ([a[0]] + fa)[0] == a[0];
      assert ([b[0]] + fb)[0] == b[0];
      NewestFirstStableIsUnique(a[1..], b[1..]);
      assert a == [a[0]] + a[1..];
      assert b == [b[0]] + b[1..];
    }
  }

  /** `filteredPosts`: the posts of the collection that pass the filter,
      newest first. */
  function Query(posts: seq<Post>, view: ViewState, category: Option<Category>, query: string, lower: string -> string): (r: seq<Post>)
    ensures NewestFirst(r) && |r| <= |posts|
    ensures forall i :: 0 <= i < |r| ==> r[i] in posts && Shown(r[i], view, category, query, lower)
  {
    var keep := ShownBy(view, category, query, lower);
    var f := Seqs.Filter(posts, keep);
    var r := SortNewestFirst(f);
    assert |r| == |multiset(r)| == |multiset(f)| == |f|;
    forall i | 0 <= i < |r|
      ensures r[i] in posts && Shown(r[i], view, category, query, lower)
    {
      assert r[i] in multiset(f);
      Seqs.FilterMembership(posts, keep, r[i]);
    }
    r
  }

  /** A post is in the feed exactly when it is in the collection and passes
      the filter. */
  lemma FeedMember(posts: seq<Post>, view: ViewState, category: Option<Category>, query: string, lower: string -> string, x: Post)
    ensures x in Query(posts, view, category, query, lower) <==> x in posts && Shown(x, view, category, query, lower)
  {
    var r := Query(posts, view, category, query, lower);
    Seqs.FilterCount(posts, ShownBy(view, category, query, lower), x);
    assert x in r <==> x in multiset(r);
  }

  /** The feed holds exactly the posts passing the filter, each as many times
      as the collection does. */
  lemma FeedIsFilteredPermutation(posts: seq<Post>, view: ViewState, category: Option<Category>, query: string, lower: string -> string)
    ensures forall x :: x in Query(posts, view, category, query, lower) <==> x in posts && Shown(x, view, category, query, lower)
    ensures forall x :: multiset(Query(posts, view, category, query, lower))[x]
                     == if Shown(x, view, category, query, lower) then multiset(posts)[x] else 0
  {
    var keep := ShownBy(view, category, query, lower);
    var r := Query(posts, view, category, query, lower);
    forall x
      ensures multiset(r)[x] == if Shown(x, view, category, query, lower) then multiset(posts)[x] else 0
    {
      Seqs.FilterCount(posts, keep, x);
    }
    forall x
      ensures x in r <==> x in posts && Shown(x, view, category, query, lower)
    {
      FeedMember(posts, view, category, query, lower, x);
    }
  }

  /** The feed is newest first, and posts created at the same instant keep
      their order in the collection. */
  lemma FeedOrder(posts: seq<Post>, view: ViewState, category: Option<Category>, query: string, lower: string -> string)
    ensures NewestFirst(Query(posts, view, category, query, lower))
    ensures forall t :: Seqs.Filter(Query(posts, view, category, query, lower), CreatedAtIs(t))
                     == Seqs.Filter(Seqs.Filter(posts, ShownBy(view, category, query, lower)), CreatedAtIs(t))
  {
    forall t {
      SortStable(Seqs.Filter(posts, ShownBy(view, category, query, lower)), t);
    }
  }

  /** The feed is the one arrangement of the passing posts that is newest
      first and keeps posts created at the same instant in collection order. */
  lemma FeedOrderIsForced(posts: seq<Post>, view: ViewState, category: Option<Category>, query: string, lower: string -> string, s: seq<Post>)
    requires NewestFirst(s)
    requires forall t :: Seqs.Filter(s, CreatedAtIs(t))
                      == Seqs.Filter(Seqs.Filter(posts, ShownBy(view, category, query, lower)), CreatedAtIs(t))
    ensures s == Query(posts, view, category, query, lower)
  {
    FeedOrder(posts, view, category, query, lower);
    NewestFirstStableIsUnique(s, Query(posts, view, category, query, lower));
  }

  /** Every post in the feed is published (outside the admin view), in the
      chosen category, and contains the query in its title or content,
      ignoring case. */
  lemma FeedRespectsFilters(posts: seq<Post>, view: ViewState, category: Option<Category>, query: string, lower: string -> string)
    ensures var r := Query(posts, view, category, query, lower);
      && (view != AdminView ==> forall i :: 0 <= i < |r| ==> r[i].status == Published)
      && (category.Some? ==> forall i :: 0 <= i < |r| ==> r[i].category == category.value)
      && (forall i :: 0 <= i < |r| ==> MatchesSearch(r[i], query, lower))
  {
    var r := Query(posts, view, category, query, lower);
    FeedIsFilteredPermutation(posts, view, category, query, lower);
    forall i | 0 <= i < |r|
      ensures Shown(r[i], view, category, query, lower)
    {
      assert r[i] in r;
    }
  }

  /** An empty search matches every post (lower-casing the empty string gives
      the empty string). */
  lemma EmptyQueryMatchesAll(p: Post, lower: string -> string)
    requires lower([]) == []
    ensures MatchesSearch(p, [], lower)
  {
  }

  /** Category and search filters combine by intersection: a post is shown
      under both exactly when it is shown under each alone. */
  lemma FiltersIntersect(p: Post, view: ViewState, category: Option<Category>, query: string, lower: string -> string)
    requires lower([]) == []
    ensures Shown(p, view, category, query, lower)
        <==> Shown(p, view, category, [], lower) && Shown(p, view, None, query, lower)
  {
    EmptyQueryMatchesAll(p, lower);
  }
}

=== FILE: seqs.dfy ===
/** `Array.prototype.filter` over sequences, and the facts about it the store
    needs: what it keeps, how many copies, and in what order. */
module Seqs {

  /** `a` can be obtained from `b` by deleting elements: `a` lists some of
      `b`'s entries in `b`'s relative order. */
  ghost predicate IsSubsequence<T>(a: seq<T>, b: seq<T>)
    decreases |b|
  {
    a == [] || (b != [] && ((a[0] == b[0] && IsSubsequence(a[1..], b[1..])) || IsSubsequence(a, b[1..])))
  }

  /** `s.filter(keep)`: the entries satisfying `keep`, left to right. */
  function Filter<T>(s: seq<T>, keep: T -> bool): (r: seq<T>)
    ensures |r| <= |s|
    ensures forall i :: 0 <= i < |r| ==> keep(r[i])
    decreases |s|
  {
    if s == [] then []
    else (if keep(s[0]) then [s[0]] else []) + Filter(s[1..], keep)
  }

  /** An entry survives the filter exactly when it was there and passes. */
  lemma {:induction false} FilterMembership<T>(s: seq<T>, keep: T -> bool, x: T)
    ensures x in Filter(s, keep) <==> x in s && keep(x)
    decreases |s|
  {
    if s != [] {
      FilterMembership(s[1..], keep, x);
      assert s == [s[0]] + s[1..];
    }
  }

  /** Every passing entry keeps all its copies; every failing one loses them. */
  lemma {:induction false} FilterCount<T>(s: seq<T>, keep: T -> bool, x: T)
    ensures multiset(Filter(s, keep))[x] == if keep(x) then multiset(s)[x] else 0
    decreases |s|
  {
    if s != [] {
      FilterCount(s[1..], keep, x);
      assert s == [s[0]] + s[1..];
    }
  }

  /** The survivors keep their relative order. */
  lemma {:induction false} FilterIsSubsequence<T>(s: seq<T>, keep: T -> bool)
    ensures IsSubsequence(Filter(s, keep), s)
    decreases |s|
  {
    if s != [] {
      var rest := Filter(s[1..], keep);
      FilterIsSubsequence(s[1..], keep);
      if keep(s[0]) {
        assert Filter(s, keep) == [s[0]] + rest;
        assert ([s[0]] + rest)[1..] == rest;
      } else {
        assert Filter(s, keep) == rest;
      }
    }
  }

  /** Filtering with a predicate that every entry satisfies changes nothing. */
  lemma {:induction false} FilterKeepsAll<T>(s: seq<T>, keep: T -> bool)
    requires forall i :: 0 <= i < |s| ==> keep(s[i])
    ensures Filter(s, keep) == s
    decreases |s|
  {
    if s != [] {
      FilterKeepsAll(s[1..], keep);
    }
  }
}

=== FILE: text.dfy ===
/** The two string operations the store relies on: `String.prototype.trim`
    (used to reject blank comments) and `String.prototype.includes` (used by the
    feed search). */
module Text {

  /** The characters ECMAScript's `trim` removes: the WhiteSpace code points
      (tab, vertical tab, form feed, space, no-break space, byte order mark and
      the other space separators) and the LineTerminator code points. */
  predicate IsWhitespace(c: char) {
    var n := c as int;
    n == 0x09 || n == 0x0B || n == 0x0C || n == 0x20 || n == 0xA0 || n == 0xFEFF
    || n == 0x1680 || (0x2000 <= n <= 0x200A) || n == 0x202F || n == 0x205F || n == 0x3000
    || n == 0x0A || n == 0x0D || n == 0x2028 || n == 0x2029
  }

  /** Every character of `s` is whitespace (the empty string included). */
  predicate IsBlank(s: string) {
    forall i :: 0 <= i < |s| ==> IsWhitespace(s[i])
  }

  /** `s` with its leading whitespace removed. */
  function TrimStart(s: string): (r: string)
    ensures |r| <= |s| && r == s[|s| - |r|..]
    ensures IsBlank(s[..|s| - |r|])
    ensures r == [] || !IsWhitespace(r[0])
    decreases |s|
  {
    if s != [] && IsWhitespace(s[0]) then TrimStart(s[1..]) else s
  }

  /** `s` with its trailing whitespace removed. */
  function TrimEnd(s: string): (r: string)
    ensures |r| <= |s| && r == s[..|r|]
    ensures IsBlank(s[|r|..])
    ensures r == [] || !IsWhitespace(r[|r| - 1])
    decreases |s|
  {
    if s != [] && IsWhitespace(s[|s| - 1]) then
      var r := TrimEnd(s[..|s| - 1]);
      TrimEndBlankTail(s, r);
      r
    else s
  }

  /** A blank tail of `s` minus its last character, followed by that
      whitespace character, is a blank tail of `s`. */
  lemma TrimEndBlankTail(s: string, r: string)
    requires s != [] && IsWhitespace(s[|s| - 1])
    requires |r| <= |s| - 1 && IsBlank(s[..|s| - 1][|r|..])
    ensures IsBlank(s[|r|..])
  {
    forall j | 0 <= j < |s| - |r|
      ensures IsWhitespace(s[|r|..][j])
    {
      if |r| + j < |s| - 1 {
        assert s[|r|..][j] == s[..|s| - 1][|r|..][j];
      }
    }
  }

  /** `s.trim()`: the part of `s` left after removing whitespace from both
      ends, so it starts and ends with a non-whitespace character. */
  function Trim(s: string): (r: string)
    ensures r == [] || (!IsWhitespace(r[0]) && !IsWhitespace(r[|r| - 1]))
    ensures exists k :: OccursAt(s, r, k) && IsBlank(s[..k]) && IsBlank(s[k + |r|..])
  {
    var front := TrimStart(s);
    var r := TrimEnd(front);
    TrimSlices(s, front, r);
    r
  }

  /** `r` trimmed from the end of `front`, itself trimmed from the start of
      `s`, sits in `s` between two blank stretches. */
  lemma TrimSlices(s: string, front: string, r: string)
    requires |front| <= |s| && front == s[|s| - |front|..] && IsBlank(s[..|s| - |front|])
    requires |r| <= |front| && r == front[..|r|] && IsBlank(front[|r|..])
    ensures exists k :: OccursAt(s, r, k) && IsBlank(s[..k]) && IsBlank(s[k + |r|..])
  {
    var k := |s| - |front|;
    assert s[k..k + |r|] == r;
    assert s[k + |r|..] == front[|r|..];
    assert OccursAt(s, r, k);
  }

  /** `s.trim()` is empty exactly when `s` consists of whitespace only. */
  lemma TrimEmptyIffBlank(s: string)
    ensures Trim(s) == [] <==> IsBlank(s)
  {
  }

  /** `needle` occurs in `hay` starting at offset `i`. */
  predicate OccursAt(hay: string, needle: string, i: int) {
    0 <= i <= |hay| - |needle| && hay[i..i + |needle|] == needle
  }

  /** `hay.includes(needle)`: `needle` occurs in `hay` at some offset. Every
      string includes the empty string and itself; no string includes a longer
      one. */
  predicate Includes(hay: string, needle: string): (b: bool)
    ensures needle == [] ==> b
    ensures needle == hay ==> b
    ensures |needle| > |hay| ==> !b
  {
    assert needle == [] || needle == hay ==> OccursAt(hay, needle, 0);
    exists i :: 0 <= i <= |hay| - |needle| && OccursAt(hay, needle, i)
  }
}

=== FILE: types.dfy ===
/** The record and enum shapes of the content portal: posts, their comments and
    emoji reaction counters, and the small enumerations they draw from. */
module Types {

  /** An optional value: a field that may be absent from a stored record. */
  datatype Option<+T> = None | Some(value: T) {

    /** The value, or `default` when absent (the source's `x || default`). */
    function GetOr(default: T): (v: T) {
      match this
      case Some(v) => v
      case None => default
    }
  }

  /** The seven topical categories a post can be filed under. */
  datatype Category = Ciencia | Sedes | Tecnologia | Filmes | Series | Eventos | Parcerias

  /** The kind of media attached to a post; `NoMedia` is the source's 'none'. */
  datatype MediaType = Image | Video | Audio | Pdf | NoMedia

  /** Only `Published` posts are shown outside the admin view. */
  datatype Status = Published | Draft

  /** The page the application is showing. */
  datatype ViewState = Home | CategoryPage | Privacy | Terms | AdminView

  /** A comment; immutable once created. */
  datatype Comment = Comment(id: string, text: string, createdAt: int)

  /** Emoji symbol to click count. */
  type Reactions = map<string, nat>

  /** A post. The collection is read back from storage without validation, and
      the handlers default `views`, `comments` and `reactions` when they are
      missing, so those three fields are optional here; `mediaUrl` is optional
      in the record type itself. */
  datatype Post = Post(
    id: string,
    title: string,
    category: Category,
    content: string,
    mediaUrl: Option<string>,
    mediaType: MediaType,
    createdAt: int,
    author: string,
    views: Option<nat>,
    comments: Option<seq<Comment>>,
    reactions: Option<Reactions>,
    status: Status)
  {
    /** `views || 0` */
    function ViewCount(): (n: nat) {
      views.GetOr(0)
    }

    /** `comments || []` */
    function CommentList(): (cs: seq<Comment>) {
      comments.GetOr([])
    }

    /** `reactions || {}` */
    function ReactionMap(): (m: Reactions) {
      reactions.GetOr(map[])
    }

    /** `reactions[emoji] || 0` */
    function ReactionCount(emoji: string): (n: nat) {
      var m := ReactionMap();
      if emoji in m then m[emoji] else 0
    }
  }

  /** The ids of a collection, in order. */
  function Ids(posts: seq<Post>): (ids: seq<string>)
    ensures |ids| == |posts|
    ensures forall i :: 0 <= i < |posts| ==> ids[i] == posts[i].id
  {
    seq(|posts|, i requires 0 <= i < |posts| => posts[i].id)
  }

  /** No two entries of the collection share an id. */
  predicate DistinctIds(posts: seq<Post>) {
    forall i, j :: 0 <= i < j < |posts| ==> posts[i].id != posts[j].id
  }

  /** `posts.findIndex(p => p.id === id)`, with -1 as `None`. */
  function FindIndex(posts: seq<Post>, id: string): (r: Option<nat>)
    ensures r.Some? ==> r.value < |posts| && posts[r.value].id == id
    ensures r.Some? ==> forall j :: 0 <= j < r.value ==> posts[j].id != id
    ensures r.None? ==> forall j :: 0 <= j < |posts| ==> posts[j].id != id
    decreases |posts|
  {
    if posts == [] then None
    else if posts[0].id == id then Some(0)
    else match FindIndex(posts[1..], id)
      case None => None
      case Some(k) => Some(k + 1)
  }
}

=== FILE: viewer.dfy ===
/** The reader-facing mutations of the collection: opening a post, commenting
    on the open post, and reacting to it with an emoji. Each maps the whole
    collection to a new one, touching only the entries with the target id. */
module Viewer {
  import opened Types
  import Text

  /** `!selectedPostId` is false: a post id is selected and it is not the
      empty string (which JavaScript treats as false). */
  predicate HasSelection(selected: Option<string>) {
    selected.Some? && selected.value != ""
  }

  /** The post after one more view. */
  function Viewed(p: Post): (q: Post) {
    p.(views := Some(p.ViewCount() + 1))
  }

  /** Opening post `id`: its view count goes up by one (a missing count reads
      as 0); every other entry, and every other field, is left alone. */
  function OpenPost(posts: seq<Post>, id: string): (r: seq<Post>)
    ensures |r| == |posts| && Ids(r) == Ids(posts)
    ensures forall i :: 0 <= i < |posts| && posts[i].id != id ==> r[i] == posts[i]
    ensures forall i :: 0 <= i < |posts| && posts[i].id == id ==>
      r[i].ViewCount() == posts[i].ViewCount() + 1 && r[i].(views := posts[i].views) == posts[i]
    ensures id !in Ids(posts) ==> r == posts
  {
    seq(|posts|, i requires 0 <= i < |posts| => if posts[i].id == id then Viewed(posts[i]) else posts[i])
  }

  /** The post with `c` in front of its comments. */
  function Commented(p: Post, c: Comment): (q: Post)
    ensures q.id == p.id
    ensures |q.CommentList()| == |p.CommentList()| + 1
    ensures q.CommentList()[0] == c && q.CommentList()[1..] == p.CommentList()
    ensures q.(comments := p.comments) == p
  {
    var cs := [c] + p.CommentList();
    assert cs[1..] == p.CommentList();
    p.(comments := Some(cs))
  }

  /** Every post with id `id` gets comment `c` in front of its comments. */
  function CommentOn(posts: seq<Post>, id: string, c: Comment): (r: seq<Post>)
    ensures |r| == |posts| && Ids(r) == Ids(posts)
    ensures forall i :: 0 <= i < |posts| && posts[i].id != id ==> r[i] == posts[i]
    ensures forall i :: 0 <= i < |posts| && posts[i].id == id ==> r[i] == Commented(posts[i], c)
  {
    var r := seq(|posts|, i requires 0 <= i < |posts| =>
      if posts[i].id == id then Commented(posts[i], c) else posts[i]);
    assert Ids(r) == Ids(posts);
    r
  }

  /** Submitting the comment box: nothing happens when the input is blank or
      no post is selected; otherwise the selected post gets a new comment,
      carrying the input exactly as typed, in front of its older ones. */
  function AddComment(posts: seq<Post>, selected: Option<string>, input: string, commentId: string, now: int): (r: seq<Post>)
    ensures |r| == |posts| && Ids(r) == Ids(posts)
    ensures Text.IsBlank(input) || !HasSelection(selected) ==> r == posts
    ensures forall i :: 0 <= i < |posts| && (selected.None? || posts[i].id != selected.value) ==> r[i] == posts[i]
    ensures !Text.IsBlank(input) && HasSelection(selected) ==>
      forall i :: 0 <= i < |posts| && posts[i].id == selected.value ==>
        && |r[i].CommentList()| == |posts[i].CommentList()| + 1
        && r[i].CommentList()[0] == Comment(commentId, input, now)
        && r[i].CommentList()[1..] == posts[i].CommentList()
        && r[i].(comments := posts[i].comments) == posts[i]
  {
    Text.TrimEmptyIffBlank(input);
    if Text.Trim(input) == [] || !HasSelection(selected) then posts
    else CommentOn(posts, selected.value, Comment(commentId, input, now))
  }

  /** The post with one more click on `emoji`. */
  function Reacted(p: Post, emoji: string): (q: Post) {
    p.(reactions := Some(p.ReactionMap()[emoji := p.ReactionCount(emoji) + 1]))
  }

  /** Clicking an emoji on the open post: its counter goes up by one (a missing
      counter reads as 0) and every other counter keeps its value; nothing
      happens when no post is selected. */
  function React(posts: seq<Post>, selected: Option<string>, emoji: string): (r: seq<Post>)
    ensures |r| == |posts| && Ids(r) == Ids(posts)
    ensures !HasSelection(selected) ==> r == posts
    ensures forall i :: 0 <= i < |posts| && (selected.None? || posts[i].id != selected.value) ==> r[i] == posts[i]
    ensures HasSelection(selected) ==>
      forall i :: 0 <= i < |posts| && posts[i].id == selected.value ==>
        && r[i].ReactionCount(emoji) == posts[i].ReactionCount(emoji) + 1
        && emoji in r[i].ReactionMap()
        && r[i].ReactionMap() - {emoji} == posts[i].ReactionMap() - {emoji}
        && r[i].(reactions := posts[i].reactions) == posts[i]
  {
    if !HasSelection(selected) then posts
    else
      seq(|posts|, i requires 0 <= i < |posts| =>
        if posts[i].id == selected.value then Reacted(posts[i], emoji) else posts[i])
  }

  /** `after` has lost nothing `before` had: no fewer views, no smaller
      reaction counter, and all the old comments, in order, after any new
      ones. */
  ghost predicate Grew(before: Post, after: Post) {
    var old_, new_ := before.CommentList(), after.CommentList();
    && after.ViewCount() >= before.ViewCount()
    && (forall e :: after.ReactionCount(e) >= before.ReactionCount(e))
    && |old_| <= |new_| && new_[|new_| - |old_|..] == old_
  }

  /** A post left alone has lost nothing. */
  lemma GrewReflexive(p: Post)
    ensures Grew(p, p)
  {
  }

  /** Opening a post only adds: no post loses views, reactions or comments. */
  lemma OpenOnlyGrows(posts: seq<Post>, id: string)
    ensures forall i :: 0 <= i < |posts| ==> Grew(posts[i], OpenPost(posts, id)[i])
  {
  }

  /** Commenting only adds: the old comments stay, in order, after the new
      one. */
  lemma CommentOnlyGrows(posts: seq<Post>, selected: Option<string>, input: string, commentId: string, now: int)
    ensures forall i :: 0 <= i < |posts| ==> Grew(posts[i], AddComment(posts, selected, input, commentId, now)[i])
  {
  }

  /** Reacting only adds: no counter goes down. */
  lemma ReactOnlyGrows(posts: seq<Post>, selected: Option<string>, emoji: string)
    ensures forall i :: 0 <= i < |posts| ==> Grew(posts[i], React(posts, selected, emoji)[i])
  {
  }

  /** `n` successive opens of post `id`. */
  function OpenTimes(posts: seq<Post>, id: string, n: nat): (r: seq<Post>)
    decreases n
  {
    if n == 0 then posts else OpenPost(OpenTimes(posts, id, n - 1), id)
  }

  /** `n` opens of post `id` add exactly `n` to its view count and leave the
      rest of the collection as it was. */
  lemma {:induction false} OpenTimesAddsN(posts: seq<Post>, id: string, n: nat)
    ensures |OpenTimes(posts, id, n)| == |posts|
    ensures Ids(OpenTimes(posts, id, n)) == Ids(posts)
    ensures forall i :: 0 <= i < |posts| && posts[i].id == id ==>
      OpenTimes(posts, id, n)[i].ViewCount() == posts[i].ViewCount() + n
    ensures forall i :: 0 <= i < |posts| && posts[i].id != id ==> OpenTimes(posts, id, n)[i] == posts[i]
    decreases n
  {
    if n > 0 {
      OpenTimesAddsN(posts, id, n - 1);
      var before := OpenTimes(posts, id, n - 1);
      forall i | 0 <= i < |posts|
        ensures before[i].id == posts[i].id
      {
        assert Ids(before)[i] == Ids(posts)[i];
      }
    }
  }

  /** `n` successive clicks on `emoji` with the same post selected. */
  function ReactTimes(posts: seq<Post>, selected: Option<string>, emoji: string, n: nat): (r: seq<Post>)
    decreases n
  {
    if n == 0 then posts else React(ReactTimes(posts, selected, emoji, n - 1), selected, emoji)
  }

  /** `n` clicks on `emoji` add exactly `n` to the selected post's counter for
      it, and leave every other counter and every other post as they were. */
  lemma {:induction false} ReactTimesAddsN(posts: seq<Post>, selected: Option<string>, emoji: string, n: nat)
    requires HasSelection(selected)
    ensures |ReactTimes(posts, selected, emoji, n)| == |posts|
    ensures Ids(ReactTimes(posts, selected, emoji, n)) == Ids(posts)
    ensures forall i :: 0 <= i < |posts| && posts[i].id == selected.value ==>
      && ReactTimes(posts, selected, emoji, n)[i].ReactionCount(emoji) == posts[i].ReactionCount(emoji) + n
      && forall e :: e != emoji ==> ReactTimes(posts, selected, emoji, n)[i].ReactionCount(e) == posts[i].ReactionCount(e)
    ensures forall i :: 0 <= i < |posts| && posts[i].id != selected.value ==> ReactTimes(posts, selected, emoji, n)[i] == posts[i]
    decreases n
  {
    if n > 0 {
      ReactTimesAddsN(posts, selected, emoji, n - 1);
      var before := ReactTimes(posts, selected, emoji, n - 1);
      var after := React(before, selected, emoji);
      forall i | 0 <= i < |posts|
        ensures before[i].id == posts[i].id
      {
        assert Ids(before)[i] == Ids(posts)[i];
      }
      forall i, e | 0 <= i < |posts| && posts[i].id == selected.value && e != emoji
        ensures after[i].ReactionCount(e) == posts[i].ReactionCount(e)
      {
        assert e in after[i].ReactionMap() - {emoji} <==> e in before[i].ReactionMap() - {emoji};
      }
    }
  }
}
